=== FILE: README.md ===
# Payment completion in the pi-backend server

This project models the store-facing core of `server.js`, an Express backend for a Pi Network book marketplace. Buyers pay for books through the Pi payment provider's approve/complete protocol. The backend records each purchase in Firestore and hands out a book's pdf only to buyers who have a purchase record for it.

The store is an immutable value (`Store.Store`) with four parts:
- the `books` collection: title, price, optional fields, pdf and cover references, owner and `salesCount`;
- the purchase records `purchases/{userUid}/books/{bookId}`;
- the completion markers `completed_payments/{paymentId}`, each naming the book and buyer it credited;
- the votes `ratings/{bookId}/votes/{userUid}`.

Each endpoint is a pure function of the store, the request body and, where it talks to the provider, the provider's replies:
- the endpoints that can write the store (`/complete-payment`, `/resolve-pending`, `/save-book`, `/reset-sales`) return an `Http.Outcome`, which holds the response, the store afterwards and the list of provider calls made;
- `handlePendingPayment` sends no response, so it returns a `Payments.Effect`, which holds the store afterwards and the provider calls;
- the read-only endpoints `/get-pdf` and `/book-ratings` return only an `Http.Response`. Provider replies are inputs: `Accepted`/`Refused(text)` for a complete call, and `Unreachable(text)`/`Status(txid, metadata)` for a status call. Recording the calls is what lets the model say that a replayed completion never reaches the provider.

Request fields are `Option<string>`. A field is falsy, as in JavaScript's `!x`, when it is absent or `""`.

Modules:
- `Store`: the data model and the three writes both completion paths share (`Credit`).
- `Provider`: provider calls and replies.
- `Http`: responses.
- `Payments`: `/complete-payment`, `handlePendingPayment`, `/resolve-pending`.
- `Access`: `/get-pdf`.
- `Catalog`: `/save-book`, `/reset-sales`.
- `Ratings`: the `/book-ratings` tally.
- `System`: runs of requests and the store invariant they preserve.

Behaviour of the code worth knowing:
- A provider failure and a missing book both answer 500. There is no 404 or 502 path.
- No payment-intent record exists. `/complete-payment` credits the book and buyer named in the request body. The recovery path credits the ones named in the provider's metadata.
- The writes are separate sequential calls, not a transaction.
- Completing a payment whose book document is missing still asks the provider to complete it. The later `update` then fails, so the payment is taken but nothing is credited. Because no marker is written, a retry asks the provider again.

## Model

| member | source | states |
|---|---|---|
| Store.Credit | server.js:164-184 | the three writes fail as a whole exactly when the book is missing (the `update` comes first); otherwise the book's count goes up by exactly one and nothing else about any book changes, the purchase and the marker appear, and the votes are untouched |
| Payments.CompletePayment | server.js:137-192 | a missing field gives 400 with no change and no provider call; an existing marker gives success with no change and no provider call; otherwise exactly one complete call; a refusal gives 500 with the provider's text and no change; the store changes if and only if the payment is new, the provider accepts and the book exists, and then the book gains exactly one sale, the purchase and marker are written and the book's pdf is returned |
| Payments.HandlePending | server.js:196-261 | always fetches the status first; without a txid, without both metadata identifiers, with an empty payment id (which `/resolve-pending` never passes) or with an existing marker it changes nothing and makes no complete call; otherwise it makes one complete call with the reported txid, and it changes the store if and only if the provider accepts and the metadata's book exists, crediting the metadata's book and buyer |
| Payments.ResolvePending | server.js:265-278 | a missing payment id gives 400 with no change; any present id gives success whatever the recovery did, with the store and calls of the recovery |
| Payments.ReplayIsNoOp | server.js:145-150 | after a crediting completion, any later request for the same payment id that has all four fields, whatever its txid, book, buyer or provider reply, answers success, calls no provider and changes nothing |
| Payments.CompletionIdempotent | server.js:146-184 | running the same completion twice with the same provider reply leaves the store as running it once |
| Payments.RecoveryAgreesWithCompletion | server.js:219-254 | when recovery reaches its complete call, it makes the same store change and the same complete call as `/complete-payment` given the reported txid and the metadata's identifiers |
| Payments.CompletionAfterRecovery | server.js:219-222 | after recovery has credited a payment, `/complete-payment` for that id is a no-op success without provider calls, and a second recovery changes nothing |
| Access.GetPdf | server.js:309-327 | the pdf is returned if and only if both ids are present, the purchase record exists and the book exists; without the record the answer is 403 "Not purchased"; an absent id makes the lookup fail with 500 |
| Catalog.SaveBook | server.js:38-67 | a missing title, price, cover, pdf, owner or ownerUid gives 400 with no change; otherwise exactly one new book under the generated id, with the given fields, defaults "", "" and "Unknown" for description, language and pageCount, and a sales count of 0; nothing else changes |
| Catalog.ResetSales | server.js:342-353 | an absent username fails with 500 and no change; otherwise the sales count is 0 on exactly the selected books, every other book is unchanged, no other field of any book changes, and nothing outside the books changes |
| Catalog.ResetSalesIdempotent | server.js:345-348 | resetting twice leaves the store as resetting once |
| Ratings.TallyVotes | server.js:99-104 | `likes` is the number of voters whose vote is "like", `dislikes` the number whose vote is "dislike", together at most the number of votes; `userVote` is the caller's vote, or null when the caller has none |
| Ratings.BookRatings | server.js:90-110 | an absent book id fails with 500; otherwise the response carries the tally of that book's votes, and a book without votes has none |
| System.CreditKeepsConsistent | server.js:164-184 | a first completion with non-empty book and buyer ids, which both callers guarantee, keeps purchase records equal to the pairs the markers name, keeps markers pointing at existing books with non-empty ids, and keeps each sales count within that book's completed payments |
| System.StepKeepsConsistent | server.js:137-348 | every modelled endpoint (`/complete-payment`, `/resolve-pending`, `/get-pdf`, `/reset-sales`, `/save-book`) preserves that invariant |
| System.RunKeepsConsistent | server.js:137-348 | every run of requests to the modelled endpoints from a consistent store ends in a consistent store |
| System.GateOnlyAfterPayment | server.js:313-323 | in a consistent store, a pdf is handed out only when a completion marker exists for that book and buyer |
| System.GateOpensAfterPayment | server.js:313-323 | in a consistent store, every completion marker opens the gate to its buyer for its book |
| System.NoPrematureAccess | server.js:313-323 | from an empty store, no run of requests to the modelled endpoints lets `/get-pdf` succeed before a payment for that book and buyer has been completed |
| System.AccessAfterPayment | server.js:313-323 | from an empty store, at the end of any run of requests to the modelled endpoints, every payment completed by then opens `/get-pdf` to its buyer for its book's pdf |
| System.StepKeepsMarkers | server.js:137-348 | no modelled endpoint removes or rewrites a completion marker |
| System.RunKeepsMarkers | server.js:137-348 | no run of requests to the modelled endpoints removes or rewrites a completion marker |
| System.AccessIsNeverLost | server.js:313-323 | in a consistent store, whatever modelled requests follow a completed payment, `/get-pdf` keeps returning the book's pdf to its buyer, so access once paid for is never lost |
| System.ReplayIsNoOpAfterAnyRun | server.js:145-150 | after a crediting completion and any later run of modelled requests, a request for the same payment id that has all four fields still answers success, calls no provider and changes nothing |
| System.SalesNeverExceedPayments | server.js:164-168 | from an empty store, after any run of requests to the modelled endpoints, no book's sales count exceeds the number of distinct completed payment ids for it, so duplicate completions never double-count |
| System.CompletionOpensGate | server.js:165-187 | right after a crediting completion, `/get-pdf` for the same book and buyer returns the very response the completion returned |

## Left out

- Express routing, CORS, JSON parsing, Firebase initialisation and the HTTP calls to the Pi API are not modelled. The provider's replies are inputs and the calls are recorded as values.
- Timestamps (`Date.now()`, `Timestamp.now()`) are nondeterministic and are not stored in the model.
- `/approve-payment` neither reads nor writes the store. It only forwards to the provider, so it has no store effect to model.
- `/request-payout` computes earnings in floating point (`sales * price * 0.7`, `toFixed`), which is not modelled.
- `/my-purchases` is syntactically broken in the source: a stray `completedRef.set` is spliced into its query chain. It has no behaviour to model.
- `/books` and `/my-sales` are plain listing reads. Their result ordering is not modelled.
- `/rate-book` writes votes but is not part of this model. The votes are taken as they stand in the store.
- System.SalesNeverExceedPayments: holds only because a store write failing after the `update` is not modelled. In the source, if the purchase or marker `set` throws after the increment, no marker is written. A later retry that the provider accepts then increments again.
- Concurrency is not modelled. The source issues its writes as separate awaits with no transaction, so two concurrent completions of one payment can both pass the marker check and double-count. The model is sequential.
- Store failures other than those named here are not modelled: quota errors, network errors, and ids containing "/" that make an invalid document path. The modelled ones are `update` of a missing book, an empty or absent document id, and an absent query value.
- JSON values other than strings in request bodies (numbers, booleans, null) are not modelled. A field is a string or absent.
- Catalog.SaveBook: keeps the price as the request's text instead of converting it with `Number(price)`, which is floating point. Its requires that `newId` is unused stands for Firestore's generation of fresh document ids.
- Ratings.TallyVotes: visits the vote documents in an arbitrary order rather than Firestore's id order. Voter ids are distinct, so the result does not depend on the order.
- System.Apply: runs leave out `/book-ratings`, which only reads the store, and `/approve-payment`, which does not touch it. They also leave out `/rate-book` and `/request-payout`, which do write the store but are not modelled (see above). The invariant therefore covers runs of the modelled endpoints only. Neither of the two writes purchase records or markers, but the model proves nothing about their effect on the invariant.

=== FILE: access.dfy ===
/** `/get-pdf`, the purchase gate: the pdf of a book is handed out only to a
    caller with a purchase record for it. It reads the store and never
    writes it. */
module Access {
  import opened Store
  import opened Http

  /** `/get-pdf`: look up purchases/{userUid}/books/{bookId}; without it the
      answer is 403, with it the book's pdf. Neither id is validated first:
      an empty or absent id makes the store lookup throw, and a purchase of
      a book whose document is gone makes reading its pdf throw. */
  function GetPdf(s: Store, bookId: Field, userUid: Field): (r: Response)
    ensures r.Success? <==>
              && Truthy(bookId) && Truthy(userUid)
              && Purchase(userUid.value, bookId.value) in s.purchases
              && bookId.value in s.books
    ensures r.Success? ==> r == Success(PdfUrl(s.books[bookId.value].pdf))
    ensures !Truthy(bookId) || !Truthy(userUid) ==> r == Failure(ServerError, InvalidArgument)
    ensures Truthy(bookId) && Truthy(userUid) && Purchase(userUid.value, bookId.value) !in s.purchases ==>
              r == Failure(Forbidden, Text(NotPurchased))
  {
    if !Truthy(userUid) || !Truthy(bookId) then Failure(ServerError, InvalidArgument)
    else if Purchase(userUid.value, bookId.value) !in s.purchases then Failure(Forbidden, Text(NotPurchased))
    else if bookId.value !in s.books then Failure(ServerError, UndefinedData)
    else Success(PdfUrl(s.books[bookId.value].pdf))
  }
}

=== FILE: catalog.dfy ===
/** The catalogue writes: `/save-book`, which creates a book document, and
    `/reset-sales`, which zeroes the sales counters of one owner's books. */
module Catalog {
  import opened Wrappers
  import opened Store
  import opened Http

  /** The body of a `/save-book` request. */
  datatype SaveRequest = SaveRequest(
    title: Field, price: Field, description: Field, language: Field, pageCount: Field,
    cover: Field, pdf: Field, owner: Field, ownerUid: Field)

  /** The six fields `/save-book` insists on are all truthy. */
  predicate HasRequiredFields(req: SaveRequest) {
    && Truthy(req.title) && Truthy(req.price) && Truthy(req.cover)
    && Truthy(req.pdf) && Truthy(req.owner) && Truthy(req.ownerUid)
  }

  /** `/save-book`: reject a request missing a required field; otherwise add
      a book document under the id the store generates (`newId`, which the
      store guarantees is unused), with the optional fields defaulted and no
      sales yet. */
  function SaveBook(s: Store, req: SaveRequest, newId: string): (o: Outcome)
    requires newId !in s.books
    ensures o.calls == []
    ensures !HasRequiredFields(req) <==> o.response == Failure(BadRequest, Text(MissingData))
    ensures !HasRequiredFields(req) ==> o.store == s
    ensures HasRequiredFields(req) ==>
              && o.response == Success(Saved(newId))
              && o.store.books.Keys == s.books.Keys + {newId}
              && (forall id | id in s.books :: o.store.books[id] == s.books[id])
              && o.store == s.(books := o.store.books)
    ensures HasRequiredFields(req) ==>
              var b := o.store.books[newId];
              && b.salesCount == 0
              && b.title == req.title.value && b.price == req.price.value
              && b.cover == req.cover.value && b.pdf == req.pdf.value
              && b.owner == req.owner.value && b.ownerUid == req.ownerUid.value
              && (Truthy(req.description) ==> b.description == req.description.value)
              && (!Truthy(req.description) ==> b.description == "")
              && (Truthy(req.language) ==> b.language == req.language.value)
              && (!Truthy(req.language) ==> b.language == "")
              && (Truthy(req.pageCount) ==> b.pageCount == req.pageCount.value)
              && (!Truthy(req.pageCount) ==> b.pageCount == "Unknown")
  {
    if !HasRequiredFields(req) then Outcome(Failure(BadRequest, Text(MissingData)), s, [])
    else
      var book := Book(
        req.title.value, req.price.value,
        OrDefault(req.description, ""), OrDefault(req.language, ""), OrDefault(req.pageCount, "Unknown"),
        req.cover.value, req.pdf.value, req.owner.value, req.ownerUid.value,
        0);
      Outcome(Success(Saved(newId)), s.(books := s.books[newId := book]), [])
  }

  /** The ids the `/reset-sales` query selects: books whose owner is
      `username`. */
  function OwnedBy(books: map<string, Book>, username: string): set<string> {
    set id | id in books && books[id].owner == username
  }

  /** `/reset-sales`: set `salesCount` to 0 on every book the query selects,
      in one batch. An absent username is not a valid query value, so the
      query throws before anything is written. */
  function ResetSales(s: Store, username: Field): (o: Outcome)
    ensures o.calls == []
    ensures username.None? ==> o == Outcome(Failure(ServerError, InvalidArgument), s, [])
    ensures username.Some? ==>
              && o.response == Success(SalesReset)
              && o.store == s.(books := o.store.books)
              && o.store.books.Keys == s.books.Keys
    ensures username.Some? ==>
              forall id | id in s.books ::
                && o.store.books[id] == s.books[id].(salesCount := o.store.books[id].salesCount)
                && (id in OwnedBy(s.books, username.value) ==> o.store.books[id].salesCount == 0)
                && (id !in OwnedBy(s.books, username.value) ==> o.store.books[id] == s.books[id])
  {
    match username
    case None => Outcome(Failure(ServerError, InvalidArgument), s, [])
    case Some(u) =>
      var selected := OwnedBy(s.books, u);
      var books := map id | id in s.books :: if id in selected then s.books[id].(salesCount := 0) else s.books[id];
      Outcome(Success(SalesReset), s.(books := books), [])
  }

  /** Resetting twice is resetting once. */
  lemma ResetSalesIdempotent(s: Store, username: Field)
    ensures var s1 := ResetSales(s, username).store;
            ResetSales(s1, username).store == s1
  {
  }
}

=== FILE: http.dfy ===
/** Responses of the HTTP endpoints, and the outcome of one request: the
    response, the store afterwards and the provider calls made on the way. */
module Http {
  import opened Wrappers
  import opened Store
  import opened Provider

  const BadRequest: nat := 400
  const Forbidden: nat := 403
  const ServerError: nat := 500

  const MissingData: string := "Missing data"
  const MissingPaymentId: string := "Missing paymentId"
  const NotPurchased: string := "Not purchased"

  /** The `error` of a failure response: a literal or provider text, or one
      of the exceptions the store or the runtime throws. */
  datatype Fault =
    | Text(text: string)
    | MissingDocument     // `update` of a document that does not exist
    | InvalidArgument     // an empty or absent document id or query value
    | UndefinedData       // reading a field of a document that does not exist

  /** The body of a `{ success: true, ... }` response. */
  datatype Body =
    | PdfUrl(url: string)
    | AlreadyCompleted          // message "Payment already completed"
    | Resolved
    | Ratings(likes: nat, dislikes: nat, userVote: Option<string>)
    | Saved(bookId: string)
    | SalesReset

  datatype Response = Success(body: Body) | Failure(status: nat, fault: Fault)

  datatype Outcome = Outcome(response: Response, store: Store, calls: seq<ProviderCall>)
}

=== FILE: payments.dfy ===
/** The payment-completion state machine: `/complete-payment`, the recovery
    routine `handlePendingPayment` and the `/resolve-pending` endpoint that
    runs it. Each is a function from the store, the request and the
    provider's replies to the outcome. The writes are applied in sequence,
    as the source issues them one after another. */
module Payments {
  import opened Wrappers
  import opened Store
  import opened Provider
  import opened Http

  /** The body of a `/complete-payment` request. */
  datatype CompleteRequest = CompleteRequest(paymentId: Field, txid: Field, bookId: Field, userUid: Field)

  /** The four fields `/complete-payment` insists on are all truthy. */
  predicate HasAllFields(req: CompleteRequest) {
    Truthy(req.paymentId) && Truthy(req.txid) && Truthy(req.bookId) && Truthy(req.userUid)
  }

  /** A well-formed request whose payment has no completion marker yet. */
  predicate FirstCompletion(s: Store, req: CompleteRequest) {
    HasAllFields(req) && req.paymentId.value !in s.completed
  }

  /** `/complete-payment`: reject a request with a missing field, answer a
      payment that already has a marker with success and nothing else, and
      otherwise ask the provider to complete it; only when the provider
      accepts, credit the book named in the request to the caller named in
      the request and return the book's pdf. */
  function CompletePayment(s: Store, req: CompleteRequest, reply: ProviderReply): (o: Outcome)
    ensures !HasAllFields(req) ==> o == Outcome(Failure(BadRequest, Text(MissingData)), s, [])
    ensures HasAllFields(req) && req.paymentId.value in s.completed ==>
              o == Outcome(Success(AlreadyCompleted), s, [])
    ensures FirstCompletion(s, req) ==> o.calls == [CompleteCall(req.paymentId.value, req.txid.value)]
    ensures FirstCompletion(s, req) && reply.Refused? ==>
              o.response == Failure(ServerError, Text(reply.text)) && o.store == s
    ensures FirstCompletion(s, req) && reply.Accepted? && req.bookId.value !in s.books ==>
              o.response == Failure(ServerError, MissingDocument) && o.store == s
    ensures o.store != s <==> FirstCompletion(s, req) && reply.Accepted? && req.bookId.value in s.books
    ensures o.response.Success? <==> HasAllFields(req) && (o.store != s || req.paymentId.value in s.completed)
    ensures o.store != s ==>
              && Credited(s, o.store, req.paymentId.value, req.bookId.value, req.userUid.value)
              && o.response == Success(PdfUrl(s.books[req.bookId.value].pdf))
  {
    if !HasAllFields(req) then Outcome(Failure(BadRequest, Text(MissingData)), s, [])
    else
      var paymentId, txid, bookId, userUid := req.paymentId.value, req.txid.value, req.bookId.value, req.userUid.value;
      if paymentId in s.completed then Outcome(Success(AlreadyCompleted), s, [])
      else
        var calls := [CompleteCall(paymentId, txid)];
        match reply
        case Refused(text) => Outcome(Failure(ServerError, Text(text)), s, calls)
        case Accepted =>
          match Credit(s, paymentId, bookId, userUid)
          case None => Outcome(Failure(ServerError, MissingDocument), s, calls)
          case Some(s') => Outcome(Success(PdfUrl(s'.books[bookId].pdf)), s', calls)
  }

  /** The identifiers the recovery path reads from the payment's metadata;
      absent metadata reads as an empty object. */
  function MetadataOf(status: StatusReply): Metadata
    requires status.Status?
  {
    status.metadata.GetOr(Metadata(None, None))
  }

  /** The recovery path reaches its complete call: the provider reports a
      txid, the metadata names a book and a buyer, and no marker exists. */
  predicate Recoverable(s: Store, paymentId: string, status: StatusReply) {
    && status.Status?
    && Truthy(status.txid)
    && Truthy(MetadataOf(status).bookId)
    && Truthy(MetadataOf(status).userUid)
    && paymentId != ""
    && paymentId !in s.completed
  }

  /** The effect of `handlePendingPayment`: the store afterwards and the
      provider calls made. It has no response; every failure is swallowed. */
  datatype Effect = Effect(store: Store, calls: seq<ProviderCall>)

  /** `handlePendingPayment`: fetch the payment's status; do nothing while it
      has no txid, when its metadata lacks the book or the buyer, or when a
      marker exists; otherwise ask the provider to complete it with the
      reported txid and, when it accepts, credit the book and buyer named in
      the metadata. An exception anywhere (provider failure, a missing book,
      an empty document id) leaves the store as it was. */
  function HandlePending(s: Store, paymentId: string, status: StatusReply, reply: ProviderReply): (e: Effect)
    ensures |e.calls| >= 1 && e.calls[0] == StatusCall(paymentId)
    ensures !Recoverable(s, paymentId, status) ==> e == Effect(s, [StatusCall(paymentId)])
    ensures Recoverable(s, paymentId, status) ==>
              e.calls == [StatusCall(paymentId), CompleteCall(paymentId, status.txid.value)]
    ensures e.store != s <==>
              Recoverable(s, paymentId, status) && reply.Accepted? && MetadataOf(status).bookId.value in s.books
    ensures e.store != s ==>
              Credited(s, e.store, paymentId, MetadataOf(status).bookId.value, MetadataOf(status).userUid.value)
  {
    var statusCall := [StatusCall(paymentId)];
    match status
    case Unreachable(_) => Effect(s, statusCall)
    case Status(txid, _) =>
      var meta := MetadataOf(status);
      if !Truthy(txid) then Effect(s, statusCall)
      else if !Truthy(meta.bookId) || !Truthy(meta.userUid) then Effect(s, statusCall)
      // the marker lookup rejects an empty document id
      else if paymentId == "" then Effect(s, statusCall)
      else if paymentId in s.completed then Effect(s, statusCall)
      else
        var calls := statusCall + [CompleteCall(paymentId, txid.value)];
        match reply
        case Refused(_) => Effect(s, calls)
        case Accepted =>
          match Credit(s, paymentId, meta.bookId.value, meta.userUid.value)
          case None => Effect(s, calls)
          case Some(s') => Effect(s', calls)
  }

  /** `/resolve-pending`: reject a request without a payment id; otherwise
      run the recovery path and report success whatever it did. */
  function ResolvePending(s: Store, paymentId: Field, status: StatusReply, reply: ProviderReply): (o: Outcome)
    ensures !Truthy(paymentId) ==> o == Outcome(Failure(BadRequest, Text(MissingPaymentId)), s, [])
    ensures Truthy(paymentId) ==> o.response == Success(Resolved)
    ensures Truthy(paymentId) ==>
              Effect(o.store, o.calls) == HandlePending(s, paymentId.value, status, reply)
  {
    if !Truthy(paymentId) then Outcome(Failure(BadRequest, Text(MissingPaymentId)), s, [])
    else
      var e := HandlePending(s, paymentId.value, status, reply);
      Outcome(Success(Resolved), e.store, e.calls)
  }

  /** Once a completion has credited a payment, every later request for the
      same payment id, whatever its txid, book, buyer or provider reply, is
      answered with success without calling the provider and changes
      nothing. */
  lemma ReplayIsNoOp(s: Store, req: CompleteRequest, reply: ProviderReply, again: CompleteRequest, reply2: ProviderReply)
    requires CompletePayment(s, req, reply).store != s
    requires HasAllFields(again) && again.paymentId == req.paymentId
    ensures var s1 := CompletePayment(s, req, reply).store;
            CompletePayment(s1, again, reply2) == Outcome(Success(AlreadyCompleted), s1, [])
  {
  }

  /** Running the same completion twice, with the provider giving the same
      reply, leaves the store as running it once. */
  lemma CompletionIdempotent(s: Store, req: CompleteRequest, reply: ProviderReply)
    ensures var s1 := CompletePayment(s, req, reply).store;
            CompletePayment(s1, req, reply).store == s1
  {
  }

  /** The recovery path applies exactly the store effects of a normal
      completion whose request carries the provider's txid and the
      metadata's identifiers. */
  lemma RecoveryAgreesWithCompletion(s: Store, paymentId: string, status: StatusReply, reply: ProviderReply)
    requires Recoverable(s, paymentId, status)
    ensures var meta := MetadataOf(status);
            var req := CompleteRequest(Some(paymentId), status.txid, meta.bookId, meta.userUid);
            && HandlePending(s, paymentId, status, reply).store == CompletePayment(s, req, reply).store
            && HandlePending(s, paymentId, status, reply).calls[1..] == CompletePayment(s, req, reply).calls
  {
  }

  /** After the recovery path has credited a payment, `/complete-payment` for
      that payment id is a no-op success, and so is a second recovery. */
  lemma CompletionAfterRecovery(s: Store, paymentId: string, status: StatusReply, reply: ProviderReply,
                                req: CompleteRequest, reply2: ProviderReply, status2: StatusReply)
    requires HandlePending(s, paymentId, status, reply).store != s
    requires HasAllFields(req) && req.paymentId == Some(paymentId)
    ensures var s1 := HandlePending(s, paymentId, status, reply).store;
            && CompletePayment(s1, req, reply2) == Outcome(Success(AlreadyCompleted), s1, [])
            && HandlePending(s1, paymentId, status2, reply2).store == s1
  {
  }
}

=== FILE: provider.dfy ===
/** The payment provider as the backend sees it: the calls it issues and the
    replies it gets back. Replies are inputs of the model; the HTTP round
    trip itself is not modelled. */
module Provider {
  import opened Wrappers
  import opened Store

  /** A request the backend sends to the provider. */
  datatype ProviderCall =
    | CompleteCall(paymentId: string, txid: string)   // POST /payments/{id}/complete
    | StatusCall(paymentId: string)                   // GET /payments/{id}

  /** The reply to a complete call: a 2xx answer, or anything else (a non-2xx
      answer or a network failure), carrying the text the backend reports. */
  datatype ProviderReply = Accepted | Refused(text: string)

  /** The `metadata` object of a payment, of which only the two identifiers
      are read. */
  datatype Metadata = Metadata(bookId: Field, userUid: Field)

  /** The reply to a status call: a failure, or the payment record with its
      (possibly absent) txid and (possibly absent) metadata. */
  datatype StatusReply =
    | Unreachable(text: string)
    | Status(txid: Field, metadata: Option<Metadata>)
}

=== FILE: ratings.dfy ===
/** The like/dislike tally of `/book-ratings`. The votes of one book are the
    documents of ratings/{bookId}/votes, one per voter id, each holding the
    vote string the voter sent. */
module Ratings {
  import opened Wrappers
  import opened Store
  import opened Http

  const Like: string := "like"
  const Dislike: string := "dislike"

  /** The voters of `votes` whose vote is exactly `kind`. */
  function VotersFor(votes: map<string, string>, kind: string): (ids: set<string>)
    ensures ids <= votes.Keys
  {
    set id | id in votes && votes[id] == kind
  }

  /** The caller's own vote, or null when the caller is absent or has not
      voted. */
  function CallerVote(votes: map<string, string>, userUid: Field): Option<string> {
    if userUid.Some? && userUid.value in votes then Some(votes[userUid.value]) else None
  }

  /** The votes stored for one book; a book nobody voted on has none. */
  function VotesOf(s: Store, bookId: string): map<string, string> {
    if bookId in s.votes then s.votes[bookId] else map[]
  }

  /** The voters among `visited` whose vote is exactly `kind`. */
  function VotersAmong(votes: map<string, string>, visited: set<string>, kind: string): (ids: set<string>)
    ensures ids <= visited
  {
    set id | id in visited && id in votes && votes[id] == kind
  }

  /** Visiting one more voter adds it to the voters of its own kind and
      leaves every other kind alone. */
  lemma {:induction false} VisitOne(votes: map<string, string>, visited: set<string>, id: string, kind: string)
    requires id in votes && id !in visited
    ensures votes[id] == kind ==> |VotersAmong(votes, visited + {id}, kind)| == |VotersAmong(votes, visited, kind)| + 1
    ensures votes[id] != kind ==> |VotersAmong(votes, visited + {id}, kind)| == |VotersAmong(votes, visited, kind)|
  {
    var before := VotersAmong(votes, visited, kind);
    var after := VotersAmong(votes, visited + {id}, kind);
    if votes[id] == kind {
      assert after == before + {id};
    } else {
      assert after == before;
    }
  }

  /** The `snap.forEach` loop: visit every vote document once, counting
      "like" and "dislike" votes and remembering the caller's vote. Any other
      vote string counts towards neither. */
  method TallyVotes(votes: map<string, string>, userUid: Field) returns (likes: nat, dislikes: nat, userVote: Option<string>)
    ensures likes == |VotersFor(votes, Like)|
    ensures dislikes == |VotersFor(votes, Dislike)|
    ensures likes + dislikes <= |votes|
    ensures userVote == CallerVote(votes, userUid)
  {
    likes, dislikes, userVote := 0, 0, None;
    var visited: set<string> := {};
    while visited != votes.Keys
      invariant visited <= votes.Keys
      invariant likes == |VotersAmong(votes, visited, Like)|
      invariant dislikes == |VotersAmong(votes, visited, Dislike)|
      invariant likes + dislikes <= |visited|
      invariant userVote == (if userUid.Some? && userUid.value in visited then Some(votes[userUid.value]) else None)
      decreases votes.Keys - visited
    {
      assert votes.Keys - visited != {};
      var id :| id in votes.Keys - visited;
      var vote := votes[id];
      VisitOne(votes, visited, id, Like);
      VisitOne(votes, visited, id, Dislike);
      if vote == Like {
        likes := likes + 1;
      } else if vote == Dislike {
        dislikes := dislikes + 1;
      }
      if userUid == Some(id) {
        userVote := Some(vote);
      }
      visited := visited + {id};
    }
    assert VotersAmong(votes, visited, Like) == VotersFor(votes, Like);
    assert VotersAmong(votes, visited, Dislike) == VotersFor(votes, Dislike);
  }

  /** `/book-ratings`: the tally of the book's votes. The book id is not
      validated; an empty or absent one makes the store lookup throw. */
  method BookRatings(s: Store, bookId: Field, userUid: Field) returns (r: Response)
    ensures !Truthy(bookId) ==> r == Failure(ServerError, InvalidArgument)
    ensures Truthy(bookId) ==>
              var votes := VotesOf(s, bookId.value);
              r == Success(Ratings(|VotersFor(votes, Like)|, |VotersFor(votes, Dislike)|, CallerVote(votes, userUid)))
    ensures r.Success? ==> r.body.likes + r.body.dislikes <= |VotesOf(s, bookId.value)|
  {
    if !Truthy(bookId) {
      return Failure(ServerError, InvalidArgument);
    }
    var likes, dislikes, userVote := TallyVotes(VotesOf(s, bookId.value), userUid);
    r := Success(Ratings(likes, dislikes, userVote));
  }
}

=== FILE: store.dfy ===
/** The document store the backend reads and writes, as an immutable value:
    the `books` collection, the `purchases/{userUid}/books/{bookId}` records,
    the `completed_payments` markers and the `ratings/{bookId}/votes`
    collections. Timestamps (`createdAt`, `purchasedAt`, `completedAt`,
    `votedAt`) are not modelled. */
module Store {
  import opened Wrappers

  /** A field of a JSON request body: absent, or a string. */
  type Field = Option<string>

  /** JavaScript truthiness of a field: an absent field and "" are falsy. */
  predicate Truthy(f: Field) {
    f.Some? && f.value != ""
  }

  /** `f || d`: the field when it is truthy, the default otherwise. */
  function OrDefault(f: Field, d: string): string {
    if Truthy(f) then f.value else d
  }

  /** A document of the `books` collection. `price` keeps the request's
      text; `salesCount` is the counter the completion paths increment. */
  datatype Book = Book(
    title: string,
    price: string,
    description: string,
    language: string,
    pageCount: string,
    cover: string,
    pdf: string,
    owner: string,
    ownerUid: string,
    salesCount: nat)

  /** A purchase record, stored at purchases/{userUid}/books/{bookId}. */
  datatype Purchase = Purchase(userUid: string, bookId: string)

  /** A completion marker, stored at completed_payments/{paymentId}. */
  datatype Marker = Marker(bookId: string, userUid: string)

  datatype Store = Store(
    books: map<string, Book>,
    purchases: set<Purchase>,
    completed: map<string, Marker>,
    votes: map<string, map<string, string>>)

  /** A store with no documents at all. */
  const Empty: Store := Store(map[], {}, map[], map[])

  /** What a first completion of `paymentId` for (`userUid`, `bookId`) does
      to the store: the book's sales count goes up by exactly one and nothing
      else about any book changes, the purchase record appears, the marker
      appears carrying the book and the buyer, and the votes are untouched. */
  ghost predicate Credited(s: Store, s': Store, paymentId: string, bookId: string, userUid: string)
  {
    && bookId in s.books
    && paymentId !in s.completed
    && s'.books.Keys == s.books.Keys
    && s'.books[bookId].salesCount == s.books[bookId].salesCount + 1
    && s'.books[bookId] == s.books[bookId].(salesCount := s'.books[bookId].salesCount)
    && (forall k | k in s.books && k != bookId :: s'.books[k] == s.books[k])
    && s'.purchases == s.purchases + {Purchase(userUid, bookId)}
    && s'.completed.Keys == s.completed.Keys + {paymentId}
    && s'.completed[paymentId] == Marker(bookId, userUid)
    && (forall p | p in s.completed :: s'.completed[p] == s.completed[p])
    && s'.votes == s.votes
  }

  /** The three writes both completion paths perform, in their order:
      increment the book's `salesCount`, set the purchase record, set the
      marker. The increment is an `update`, which fails when the book
      document does not exist; as it is the first write, nothing is written
      then (None). */
  function Credit(s: Store, paymentId: string, bookId: string, userUid: string): (r: Option<Store>)
    ensures r.None? <==> bookId !in s.books
    ensures r.Some? && paymentId !in s.completed ==> Credited(s, r.value, paymentId, bookId, userUid)
    ensures r.Some? ==> r.value != s
  {
    if bookId !in s.books then None
    else
      var book := s.books[bookId];
      Some(s.(books := s.books[bookId := book.(salesCount := book.salesCount + 1)],
              purchases := s.purchases + {Purchase(userUid, bookId)},
              completed := s.completed[paymentId := Marker(bookId, userUid)]))
  }
}

=== FILE: system.dfy ===
/** The backend as a whole: a run is a sequence of requests, each applied to
    the store left by the previous one. The invariant `Consistent` ties the
    purchase records and sales counters to the completion markers; every
    modelled endpoint preserves it, which gives the access guarantee of the purchase
    gate and the absence of double crediting over any run. */
module System {
  import opened Wrappers
  import opened Store
  import opened Provider
  import opened Http
  import opened Payments
  import opened Access
  import opened Catalog

  /** One request to a modelled endpoint, with the provider's replies and
      the id the store generates for a new book. `/book-ratings` only reads
      the votes and is left out of runs, as are the endpoints this model
      does not cover. */
  datatype Step =
    | CompleteStep(req: CompleteRequest, reply: ProviderReply)
    | ResolveStep(paymentId: Field, status: StatusReply, reply: ProviderReply)
    | GetPdfStep(bookId: Field, userUid: Field)
    | ResetStep(username: Field)
    | SaveStep(save: SaveRequest, newId: string)

  /** The store hands out only unused ids for new books. */
  predicate Enabled(s: Store, step: Step) {
    step.SaveStep? ==> step.newId !in s.books
  }

  function Apply(s: Store, step: Step): (o: Outcome)
    requires Enabled(s, step)
    ensures step.GetPdfStep? ==> o.store == s
  {
    match step
    case CompleteStep(req, reply) => CompletePayment(s, req, reply)
    case ResolveStep(paymentId, status, reply) => ResolvePending(s, paymentId, status, reply)
    case GetPdfStep(bookId, userUid) => Outcome(GetPdf(s, bookId, userUid), s, [])
    case ResetStep(username) => ResetSales(s, username)
    case SaveStep(save, newId) => SaveBook(s, save, newId)
  }

  /** Every step of the run gets an enabled store. */
  predicate Feasible(s: Store, steps: seq<Step>)
    decreases |steps|
  {
    |steps| == 0 || (Enabled(s, steps[0]) && Feasible(Apply(s, steps[0]).store, steps[1..]))
  }

  /** The store after the whole run. */
  function Run(s: Store, steps: seq<Step>): Store
    requires Feasible(s, steps)
    decreases |steps|
  {
    if |steps| == 0 then s else Run(Apply(s, steps[0]).store, steps[1..])
  }

  /** The (buyer, book) pairs the completion markers name. */
  function Granted(completed: map<string, Marker>): set<Purchase> {
    set pid | pid in completed :: Purchase(completed[pid].userUid, completed[pid].bookId)
  }

  /** The payment ids whose marker names `bookId`. */
  function PaymentsFor(completed: map<string, Marker>, bookId: string): set<string> {
    set pid | pid in completed && completed[pid].bookId == bookId
  }

  /** Purchase records are exactly the pairs named by markers, markers name
      existing books by non-empty ids for non-empty buyers, and no book has
      counted more sales than it has completed payments. */
  ghost predicate Consistent(s: Store) {
    && s.purchases == Granted(s.completed)
    && (forall pid | pid in s.completed :: s.completed[pid].bookId in s.books)
    && (forall pid | pid in s.completed :: s.completed[pid].bookId != "" && s.completed[pid].userUid != "")
    && (forall b | b in s.books :: s.books[b].salesCount <= |PaymentsFor(s.completed, b)|)
  }

  lemma EmptyConsistent()
    ensures Consistent(Empty)
  {
  }

  /** A new marker adds exactly the pair it names to the granted pairs. */
  lemma {:induction false} GrantedGrows(completed: map<string, Marker>, paymentId: string, m: Marker)
    requires paymentId !in completed
    ensures Granted(completed[paymentId := m]) == Granted(completed) + {Purchase(m.userUid, m.bookId)}
  {
    var after := completed[paymentId := m];
    forall p | p in Granted(after)
      ensures p in Granted(completed) + {Purchase(m.userUid, m.bookId)}
    {
      var pid :| pid in after && p == Purchase(after[pid].userUid, after[pid].bookId);
      if pid != paymentId {
        assert pid in completed;
      }
    }
    forall p | p in Granted(completed)
      ensures p in Granted(after)
    {
      var pid :| pid in completed && p == Purchase(completed[pid].userUid, completed[pid].bookId);
      assert pid in after;
    }
    assert paymentId in after;
  }

  /** A new marker adds one payment to the book it names and none to any
      other book. */
  lemma {:induction false} PaymentsForGrows(completed: map<string, Marker>, paymentId: string, m: Marker, bookId: string)
    requires paymentId !in completed
    ensures m.bookId == bookId ==> |PaymentsFor(completed[paymentId := m], bookId)| == |PaymentsFor(completed, bookId)| + 1
    ensures m.bookId != bookId ==> PaymentsFor(completed[paymentId := m], bookId) == PaymentsFor(completed, bookId)
  {
    if m.bookId == bookId {
      assert PaymentsFor(completed[paymentId := m], bookId) == PaymentsFor(completed, bookId) + {paymentId};
    } else {
      assert PaymentsFor(completed[paymentId := m], bookId) == PaymentsFor(completed, bookId);
    }
  }

  /** The three writes of a first completion keep the store consistent: the
      new purchase record is the pair the new marker names, and the one
      book whose count goes up gains exactly one payment. */
  lemma {:induction false} CreditKeepsConsistent(s: Store, s': Store, paymentId: string, bookId: string, userUid: string)
    requires Consistent(s)
    requires bookId != "" && userUid != ""
    requires Credited(s, s', paymentId, bookId, userUid)
    ensures Consistent(s')
  {
    var m := Marker(bookId, userUid);
    assert s'.completed == s.completed[paymentId := m];
    GrantedGrows(s.completed, paymentId, m);
    forall k | k in s'.books
      ensures s'.books[k].salesCount <= |PaymentsFor(s'.completed, k)|
    {
      PaymentsForGrows(s.completed, paymentId, m, k);
    }
  }

  /** Every modelled endpoint keeps the store consistent. */
  lemma StepKeepsConsistent(s: Store, step: Step)
    requires Consistent(s) && Enabled(s, step)
    ensures Consistent(Apply(s, step).store)
  {
    var s' := Apply(s, step).store;
    match step
    case CompleteStep(req, reply) =>
      if s' != s {
        CreditKeepsConsistent(s, s', req.paymentId.value, req.bookId.value, req.userUid.value);
      }
    case ResolveStep(paymentId, status, reply) =>
      if s' != s {
        var meta := MetadataOf(status);
        CreditKeepsConsistent(s, s', paymentId.value, meta.bookId.value, meta.userUid.value);
      }
    case GetPdfStep(_, _) =>
    case ResetStep(username) =>
      if username.Some? {
        forall b | b in s'.books
          ensures s'.books[b].salesCount <= |PaymentsFor(s'.completed, b)|
        {
          assert s'.completed == s.completed;
        }
      }
    case SaveStep(save, newId) =>
      if HasRequiredFields(save) {
        forall b | b in s'.books
          ensures s'.books[b].salesCount <= |PaymentsFor(s'.completed, b)|
        {
          assert s'.completed == s.completed;
        }
      }
  }

  /** Every run from a consistent store ends in a consistent store. */
  lemma {:induction false} RunKeepsConsistent(s: Store, steps: seq<Step>)
    requires Consistent(s) && Feasible(s, steps)
    ensures Consistent(Run(s, steps))
    decreases |steps|
  {
    if |steps| > 0 {
      StepKeepsConsistent(s, steps[0]);
      RunKeepsConsistent(Apply(s, steps[0]).store, steps[1..]);
    }
  }

  /** In a consistent store the gate hands out a pdf only to a buyer for
      whom some completed payment of that book exists. */
  lemma GateOnlyAfterPayment(s: Store, bookId: Field, userUid: Field)
    requires Consistent(s)
    requires GetPdf(s, bookId, userUid).Success?
    ensures exists pid :: pid in s.completed && s.completed[pid] == Marker(bookId.value, userUid.value)
  {
  }

  /** Conversely, in a consistent store every completed payment opens the
      gate to its buyer for its book. */
  lemma GateOpensAfterPayment(s: Store, paymentId: string)
    requires Consistent(s)
    requires paymentId in s.completed
    ensures var m := s.completed[paymentId];
            GetPdf(s, Some(m.bookId), Some(m.userUid)) == Success(PdfUrl(s.books[m.bookId].pdf))
  {
  }

  /** From an empty store, no run of the modelled endpoints lets the gate
      hand out a pdf before a payment for that buyer and book has been
      completed. */
  lemma NoPrematureAccess(steps: seq<Step>, bookId: Field, userUid: Field)
    requires Feasible(Empty, steps)
    requires GetPdf(Run(Empty, steps), bookId, userUid).Success?
    ensures var s := Run(Empty, steps);
            exists pid :: pid in s.completed && s.completed[pid] == Marker(bookId.value, userUid.value)
  {
    EmptyConsistent();
    RunKeepsConsistent(Empty, steps);
    GateOnlyAfterPayment(Run(Empty, steps), bookId, userUid);
  }

  /** From an empty store, at the end of any run of the modelled endpoints,
      every payment completed by then opens the gate to its buyer for its
      book. */
  lemma AccessAfterPayment(steps: seq<Step>, paymentId: string)
    requires Feasible(Empty, steps)
    requires paymentId in Run(Empty, steps).completed
    ensures var s := Run(Empty, steps);
            var m := s.completed[paymentId];
            && m.bookId in s.books
            && GetPdf(s, Some(m.bookId), Some(m.userUid)) == Success(PdfUrl(s.books[m.bookId].pdf))
  {
    EmptyConsistent();
    RunKeepsConsistent(Empty, steps);
    GateOpensAfterPayment(Run(Empty, steps), paymentId);
  }

  /** No modelled endpoint removes or rewrites a completion marker. */
  lemma StepKeepsMarkers(s: Store, step: Step)
    requires Enabled(s, step)
    ensures var s' := Apply(s, step).store;
            forall p | p in s.completed :: p in s'.completed && s'.completed[p] == s.completed[p]
  {
  }

  /** No run of the modelled endpoints removes or rewrites a completion
      marker. */
  lemma {:induction false} RunKeepsMarkers(s: Store, steps: seq<Step>)
    requires Feasible(s, steps)
    ensures var s' := Run(s, steps);
            forall p | p in s.completed :: p in s'.completed && s'.completed[p] == s.completed[p]
    decreases |steps|
  {
    if |steps| > 0 {
      StepKeepsMarkers(s, steps[0]);
      RunKeepsMarkers(Apply(s, steps[0]).store, steps[1..]);
    }
  }

  /** Access once paid for is never lost: whatever modelled requests follow
      a completed payment in a consistent store, `/get-pdf` keeps returning
      the book's pdf to its buyer. */
  lemma AccessIsNeverLost(s: Store, later: seq<Step>, paymentId: string)
    requires Consistent(s) && Feasible(s, later)
    requires paymentId in s.completed
    ensures var s' := Run(s, later);
            var m := s.completed[paymentId];
            && m.bookId in s'.books
            && GetPdf(s', Some(m.bookId), Some(m.userUid)) == Success(PdfUrl(s'.books[m.bookId].pdf))
  {
    RunKeepsMarkers(s, later);
    RunKeepsConsistent(s, later);
    GateOpensAfterPayment(Run(s, later), paymentId);
  }

  /** A credited payment stays credited: after any later modelled requests,
      `/complete-payment` for the same payment id is answered with success,
      calls no provider and changes nothing. */
  lemma ReplayIsNoOpAfterAnyRun(s: Store, req: CompleteRequest, reply: ProviderReply, later: seq<Step>,
                                again: CompleteRequest, reply2: ProviderReply)
    requires CompletePayment(s, req, reply).store != s
    requires Feasible(CompletePayment(s, req, reply).store, later)
    requires HasAllFields(again) && again.paymentId == req.paymentId
    ensures var s' := Run(CompletePayment(s, req, reply).store, later);
            CompletePayment(s', again, reply2) == Outcome(Success(AlreadyCompleted), s', [])
  {
    var s1 := CompletePayment(s, req, reply).store;
    assert req.paymentId.value in s1.completed;
    RunKeepsMarkers(s1, later);
  }

  /** From an empty store, after any run no book has counted more sales than
      there are distinct completed payment ids for it. */
  lemma SalesNeverExceedPayments(steps: seq<Step>, bookId: string)
    requires Feasible(Empty, steps)
    requires bookId in Run(Empty, steps).books
    ensures var s := Run(Empty, steps);
            s.books[bookId].salesCount <= |PaymentsFor(s.completed, bookId)|
  {
    EmptyConsistent();
    RunKeepsConsistent(Empty, steps);
  }

  /** A successful first completion opens the gate: the buyer then gets the
      very pdf the completion returned. */
  lemma CompletionOpensGate(s: Store, req: CompleteRequest, reply: ProviderReply)
    requires CompletePayment(s, req, reply).store != s
    ensures var o := CompletePayment(s, req, reply);
            GetPdf(o.store, req.bookId, req.userUid) == o.response
  {
  }
}

=== FILE: wrappers.dfy ===
/** Optional values, used for request fields that may be absent and for
    store writes that may fail. */
module Wrappers {

  datatype Option<+T> = None | Some(value: T) {

    /** Returns the value in Some, or `default` when None. */
    function GetOr(default: T): T {
      match this
      case Some(v) => v
      case None => default
    }
  }
}
